=== FILE: README.md ===
# DGA salary/dividend calculator, 2026 rates — Dafny model

A model of the tax engine inside `streamlit_app.py`, a calculator that helps a Dutch
owner-director (DGA) split a fixed amount taken from their company (BV) between salary
and dividend. It models:

- the progressive **bracket loop**, written once (`Brackets.Tax`) and used for box 1
  income tax, box 2 dividend tax and corporate tax (VPB), with the three 2026 tables
  (`Rates2026`);
- the **credits**: the labour credit (arbeidskorting) as a first-match piecewise schedule
  (`Schedules`, `Credits.LaborCredit`) and the general credit (algemene heffingskorting)
  with its linear phase-out (`Credits.GeneralCredit`);
- the **salary layer** `ib_box1` (`Box1.SalaryLevy`): premium on the salary above the
  AOW franchise at an age-dependent rate, bracket tax, credits, floored at zero;
- the **dividend layer** `box2` (`Box2.DividendTax`) and **corporate tax**
  `vpb_berekenen` (`Corporate.CorporateTax`);
- the **scenario** `bereken_scenario`, as an exact record (`Scenario.Compose`) and as the
  rounded whole-euro figures the calculator reports (`Scenario.Calculate`), with
  Python's half-to-even `round` (`Rounding.RoundHalfEven`);
- strategy 1, the minimum salary with the dividend clamped at zero;
- the **comparison sweep**: candidate salaries from the minimum salary in steps of 10,000,
  capped at the payout and at 150,000, and the best row as the first maximum of total net
  (`Sweep`).

Money and rates are `real`: the source's floats stand in for exact decimal amounts.
Salary, dividend and payout inputs are whole euros (`int`) where the source gets them
from integer inputs.

Behaviour of the code worth knowing:

- The bracket loop does not clamp a negative amount to zero tax; it taxes it at the
  first bracket's rate (`Brackets.NegativeAmountNotClamped`).
- The labour credit picks the first segment whose upper bound is at least the income
  (upper bound inclusive, lower bound never consulted), and the result is not clamped:
  it is negative from 105,685 to 130,997 and jumps at 12,570, 24,338 and 130,997.
- Total net does not subtract corporate tax, so total net plus total tax is the payout
  plus corporate tax, not the payout (`Scenario.NetIgnoresCorporateTax`).
- Every levy and every net amount is rounded separately, so after rounding net plus
  personal tax is guaranteed to equal the payout only away from half-euro ties; at a tie
  it can be one euro short or one euro over (`Scenario.ReportBalances`,
  `Rounding.RoundedSplitCanLoseOne`, `Rounding.RoundedSplitCanGainOne`).
- The sweep stops at 150,000 as well as at the payout. An empty table makes the source
  fail rather than report; the model returns `None`.
- The effective rate divides by the payout with no zero guard.

## Model

| member | source | states |
|---|---|---|
| `Brackets.TaxIsMarginal` | streamlit_app.py:52-59 | For a contiguous table from `lo` on with non-negative rates and an open last bracket, walking a remainder ≥ 0 through the loop gives the sum over brackets of rate × the part of `lo` + remainder inside that bracket |
| `Brackets.TaxIsReference` | streamlit_app.py:52-59 | On a table that starts at 0, is contiguous, has non-negative rates and an open last bracket, the loop gives the sum of rate × the part of a non-negative amount inside each bracket |
| `Brackets.Tax` | streamlit_app.py:52-59 | The loop itself, shared by the three levies (also lines 65-74 and 76-85); characterised by `Brackets.TaxIsReference`: on a well-formed table and amount ≥ 0 it is the per-bracket sum |
| `Brackets.TaxAtZero` | streamlit_app.py:65-74 | Tax of a zero amount is zero for every well-formed table |
| `Brackets.TaxNonNegative` | streamlit_app.py:65-74 | Tax of a non-negative amount is non-negative for every well-formed table |
| `Brackets.TaxMonotone` | streamlit_app.py:76-85 | A larger non-negative amount never pays less bracket tax |
| `Brackets.InvertedBracketBreaksZero` | streamlit_app.py:52-59 | The loop reads only each bracket's width: a bracket whose upper bound is below its lower bound gives a negative slice, and a zero amount then pays −3 on a two-bracket table |
| `Brackets.NegativeAmountNotClamped` | streamlit_app.py:66-73 | A negative amount is taxed at the first bracket's rate, giving a negative tax when that rate is positive |
| `Schedules.FirstMatch` | streamlit_app.py:32-36 | Returns the index of the first segment whose upper bound is open or at least the income, and none exactly when no segment accepts it |
| `Schedules.Evaluate` | streamlit_app.py:33-36 | The schedule walk; characterised by `Schedules.EvaluateAt`: the first accepting segment's formula gives the result |
| `Schedules.EvaluateAt` | streamlit_app.py:33-35 | The first accepting segment's formula gives the credit |
| `Schedules.FallbackUnreachable` | streamlit_app.py:33-36 | When the last segment is open every income finds a segment, so the fall-through 0 is never used |
| `Rates2026.TablesWellFormed` | streamlit_app.py:10-28 | The income, box 2 and corporate tables start at 0, are contiguous, have non-negative rates and end with an open bracket |
| `Credits.LaborCreditMatchesCases` | streamlit_app.py:15-21 | The labour credit equals the five-segment case split with inclusive upper bounds, for every income |
| `Credits.LaborCredit` | streamlit_app.py:15-21 | The labour credit on the 2026 schedule (walked as at lines 32-36); characterised by `Credits.LaborCreditMatchesCases`: equal to the five-case split for every income |
| `Credits.LaborCreditAlwaysMatches` | streamlit_app.py:20 | The open last segment makes the labour schedule match every income |
| `Credits.LaborCreditAtZero` | streamlit_app.py:16 | The labour credit of zero income is zero |
| `Credits.LaborCreditPlateau` | streamlit_app.py:18 | The labour credit is exactly 4,333 on (24,338, 40,527] |
| `Credits.LaborCreditVanishes` | streamlit_app.py:20 | The labour credit is zero above 130,997 |
| `Credits.LaborCreditNegative` | streamlit_app.py:19 | The labour credit is negative on [105,685, 130,997] |
| `Credits.LaborCreditJumpAt12570` | streamlit_app.py:16-17 | At 12,570 the first segment applies (796.4352); just above, the credit is below 796: a downward jump |
| `Credits.LaborCreditJumpAt24338` | streamlit_app.py:17-18 | At 24,338 the second segment applies (4,302.21704); above it the plateau is 30.78296 higher: an upward jump |
| `Credits.LaborCreditJumpAt130997` | streamlit_app.py:19-20 | At 130,997 the fourth segment applies (−1,683.255); above it the credit is 0, 1,683.255 higher: an upward jump |
| `Credits.PhaseOutEndpoints` | streamlit_app.py:43 | The phase-out formula gives 3,070 at 24,338 and 0 at 76,934 |
| `Credits.GeneralCredit` | streamlit_app.py:40-45 | The general credit lies in [0, 3,070], is 3,070 up to 24,338 and 0 above 76,934, and equals the phase-out line clamped to [0, 3,070] |
| `Credits.GeneralCreditNonIncreasing` | streamlit_app.py:40-45 | More income never gives more general credit |
| `Credits.TaxCredits` | streamlit_app.py:38-46 | The combined credit is the labour credit plus the phase-out line clamped to [0, 3,070]: all of 3,070 up to 24,338 and nothing above 76,934 |
| `Box1.IncomeTaxClosedForm` | streamlit_app.py:52-59 | Box 1 bracket tax of s ≥ 0 is 0.3695·min(s, 76,934) + 0.495·max(0, s − 76,934) |
| `Box1.PremiumRate` | streamlit_app.py:50 | The premium rate is positive, at most the full 17.8% rate, and strictly lower exactly from the AOW age on |
| `Box1.SalaryLevy` | streamlit_app.py:48-63 | Premium base is max(0, salary − 18,760); the premium, bracket tax and credits are those of the salary; payable is never negative, is at least tax + premium − credits and equals it unless floored at 0; net + payable = salary |
| `Box1.Premium` | streamlit_app.py:49-50 | The premium is never negative, is 0 up to the 18,760 franchise, and above it is the excess times the age-dependent rate |
| `Box1.PremiumLowerFromAowAge` | streamlit_app.py:50 | For every salary the premium from the AOW age on is at most the premium before it |
| `Box1.AowAgeNeverCostsMore` | streamlit_app.py:50 | Having reached the AOW age never increases the amount payable |
| `Box1.NoCreditsAtHighSalary` | streamlit_app.py:48-62 | Above 130,997 the amount payable is the bracket tax plus the premium, with no credit |
| `Box2.Box2ClosedForm` | streamlit_app.py:65-74 | Box 2 bracket tax of d ≥ 0 is 0.245·min(d, 66,700) + 0.318·max(0, d − 66,700) |
| `Box2.DividendTax` | streamlit_app.py:65-74 | Net dividend plus box 2 tax is the dividend; for d ≥ 0 the tax has the closed form and lies in [0, 0.318·d] |
| `Box2.DividendTaxMonotone` | streamlit_app.py:65-74 | A larger dividend never pays less box 2 tax |
| `Corporate.CorporateClosedForm` | streamlit_app.py:76-85 | Corporate bracket tax of w ≥ 0 is 0.19·min(w, 200,000) + 0.258·max(0, w − 200,000) |
| `Corporate.CorporateTax` | streamlit_app.py:76-85 | For w ≥ 0 corporate tax has the closed form and lies between 19% and 25.8% of w |
| `Rounding.RoundHalfEven` | streamlit_app.py:63 | The result is within one half of the input, strictly unless the input ends in .5, and even at such a tie |
| `Rounding.RoundNearest` | streamlit_app.py:74 | Any integer closer than one half to the input is the rounded value |
| `Rounding.RoundIntegral` | streamlit_app.py:85 | Rounding a whole number leaves it unchanged |
| `Rounding.RoundedSplitAddsUp` | streamlit_app.py:63 | Away from ties, rounding the tax and rounding the rest of a whole amount add up to the amount |
| `Rounding.RoundedSplitCanLoseOne` | streamlit_app.py:74 | At a tie the two rounded parts can add up to one less than the amount (0.5 + 0.5 from 1 gives 0 + 0) |
| `Rounding.RoundedSplitCanGainOne` | streamlit_app.py:74 | At a tie the two rounded parts can add up to one more than the amount (1.5 + 1.5 from 3 gives 2 + 2) |
| `Scenario.Compose` | streamlit_app.py:87-97 | Corporate tax is the VPB of the payout, salary tax and net salary are box 1's payable and net (payable = max(0, bracket tax + premium − credits)), dividend tax and net dividend are box 2's, with the two-bracket closed forms for non-negative amounts; total tax = corporate + box 1 + box 2; total net = net salary + net dividend; net + personal taxes = salary + dividend |
| `Scenario.NetIgnoresCorporateTax` | streamlit_app.py:96-97 | Total net plus total tax exceeds the payout by exactly the corporate tax, which is positive for a positive payout |
| `Scenario.RoundScenario` | streamlit_app.py:87-97 | Each levy and net amount is rounded on its own, within half a euro of the exact one; the totals are sums of the rounded parts |
| `Scenario.RoundedScenarioBalances` | streamlit_app.py:93-97 | When each layer's net plus tax is its whole-euro gross and no personal tax ends in exactly half a euro, rounded net plus rounded personal taxes is the payout |
| `Scenario.Calculate` | streamlit_app.py:87-97 | The reported totals are sums of the rounded parts, each rounded part within half a euro of the exact one, salary tax non-negative; dividend and corporate tax non-negative for a non-negative dividend and payout |
| `Scenario.ReportBalances` | streamlit_app.py:93-97 | When neither personal tax ends in exactly half a euro, reported net plus reported personal taxes is the payout |
| `Scenario.EffectiveRatePercent` | streamlit_app.py:109 | The effective rate times the payout is 100 × total tax, and it is non-negative for a positive payout |
| `Scenario.MinimumSalaryScenario` | streamlit_app.py:130-133 | Strategy 1 is the calculator's report for the minimum salary and a non-negative dividend; the payout is the requested total unless the minimum salary exceeds it, in which case the dividend is 0 |
| `Sweep.Range` | streamlit_app.py:150 | Python's range: the i-th element is start + 10,000·i, all below stop, and the length is the number of such steps |
| `Sweep.KeepPayable` | streamlit_app.py:151-153 | Exactly the salaries leaving a non-negative dividend are kept, as a subsequence of the input in its order; nothing is dropped when all salaries are at most the payout |
| `Sweep.CandidatesAreGrid` | streamlit_app.py:150-153 | Candidates are min_loon + 10,000·i, within [min_loon, min(payout, 150,000)], with non-negative dividend; the list is empty exactly when min_loon > min(payout, 150,000) |
| `Sweep.CandidatesComplete` | streamlit_app.py:150 | Every grid salary between min_loon and min(payout, 150,000) is a candidate |
| `Sweep.Candidates` | streamlit_app.py:150-153 | The salaries the table evaluates; characterised by `Sweep.CandidatesAreGrid` and `Sweep.CandidatesComplete`: exactly the 10,000-grid from min_loon up to min(payout, 150,000) |
| `Sweep.Rows` | streamlit_app.py:150-162 | One row per candidate salary, in the candidates' order, with the rest of the payout as dividend and the scoring of that salary as total net |
| `Sweep.ScenarioNet` | streamlit_app.py:154-159 | The score of a salary: the reported total net of that salary with the rest of the payout as dividend; used by `Sweep.OptimizeIsBest` |
| `Sweep.FirstMaxIndex` | streamlit_app.py:165 | The chosen row's total net is at least every row's, and every earlier row's is strictly less |
| `Sweep.FirstMaxUnique` | streamlit_app.py:165 | Only one index is a first maximum |
| `Sweep.Best` | streamlit_app.py:164-165 | No best row exactly for an empty table; otherwise the first row of the table whose total net is maximal |
| `Sweep.BestPrefersLowestSalary` | streamlit_app.py:165 | With salaries ascending, every row with a lower salary than the best one has strictly lower total net |
| `Sweep.BestSplitIsBest` | streamlit_app.py:150-165 | For any scoring of salaries: a best row exists exactly when min_loon ≤ min(payout, 150,000); its salary is a candidate within those bounds, it pays out the whole amount, carries its own salary's score, ties or beats every candidate salary and strictly beats every lower one |
| `Sweep.OptimizeIsBest` | streamlit_app.py:150-165 | The same for the calculator's own scoring, the reported total net of salary s with dividend payout − s: a best row exists exactly when min_loon ≤ min(payout, 150,000), its salary is a candidate, and its total net is that of its own split and at least that of every candidate, strictly above every lower one |
| `Sweep.Optimize` | streamlit_app.py:150-165 | The optimiser; characterised by `Sweep.OptimizeIsBest`: the first row with maximal reported total net over the candidates, none exactly when there is no candidate |
| `Sweep.OptimizeNoWorseThanMinimumSalary` | streamlit_app.py:130-165 | Whenever the table has a best row, its total net is at least that of strategy 1, the minimum salary being one of the candidates |

## Left out

- The Streamlit page: title, sidebar inputs, columns, slider, metrics, chart, table
  styling and messages (streamlit_app.py:1-7, 112-148, 167-175) are presentation; their
  values enter the model as parameters.
- Strategy 2, the slider-chosen salary (streamlit_app.py:137-145), is a plain call of
  `bereken_scenario` with a user-chosen salary; `Scenario.Calculate` covers it.
- Euro and percentage string formatting, and the parse back to an integer in the table
  (streamlit_app.py:100-109, 157-160, 172): the table's total net is taken directly as the
  integer the scenario computes.
- `mkb_vrij` and its constant (streamlit_app.py:29, 90-91): computed but never used.
- pandas: rows are a sequence of records and `idxmax` is a first-maximum search.
- IEEE floating point: amounts are exact reals; rounding is the exact half-to-even rule.
- Brackets.TaxNonNegative: zero at zero, non-negativity and monotonicity are proved for
  tables that start at 0, are contiguous, have non-negative rates and an open last bracket,
  not for every table with an open last bracket (a negative rate, or a bracket whose upper
  bound is below its lower bound, breaks them, as `Brackets.InvertedBracketBreaksZero` shows;
  contiguity and the start at 0 are what the reference sum `Brackets.Marginal` needs).
- Partner income, the young-children credit, benefit in kind, the excessive-loan tax,
  an inverse net-to-gross solver and other tax years: the calculator does not implement them.


=== FILE: box1.dfy ===
/** Box 1: wage tax and national-insurance premium on the salary (`ib_box1`). */
module Box1 {
  import opened Wrappers
  import opened Numbers
  import opened Brackets
  import opened Rates2026
  import opened Credits

  /** Closed form of the box 1 brackets: the first two brackets share the rate
      36.95%, so the tax is 36.95% up to 76,934 and 49.5% above. */
  lemma IncomeTaxClosedForm(salary: real)
    requires salary >= 0.0
    ensures Tax(IncomeBrackets, salary)
         == 0.3695 * Min(salary, 76934.0) + 0.495 * Max(0.0, salary - 76934.0)
  {
    TablesWellFormed();
    TaxIsMarginal(IncomeBrackets, 0.0, salary);
    var rest := IncomeBrackets[1..];
    var last := rest[1..];
    assert last == [Bracket(76934.0, None, 0.495)];
    assert Marginal(last, salary) == Portion(last[0], salary) * 0.495 by {
      assert last[1..] == [];
    }
    assert Marginal(rest, salary) == Portion(rest[0], salary) * 0.3695 + Marginal(last, salary);
  }

  /** The premium rate: the long-term-care premium only from the AOW age on, the full premium before. */
  function PremiumRate(aowAge: bool): (rate: real)
    ensures 0.0 < rate <= AowPremiumRate
    ensures aowAge <==> rate < AowPremiumRate
  {
    if aowAge then WlzOnlyRate else AowPremiumRate
  }

  /** Every intermediate amount of the box 1 calculation, before rounding. */
  datatype SalaryTax = SalaryTax(
    premiumBase: real,  // salary above the franchise
    premium: real,      // national-insurance premium
    incomeTax: real,    // bracket tax
    credits: real,      // labour plus general credit
    payable: real,      // te_betalen
    net: real)          // salary minus payable

  /** The box 1 calculation. The premium is charged on the part of the salary
      above the franchise; credits cannot push the amount payable below zero;
      payable plus net is exactly the salary. */
  function SalaryLevy(salary: real, aowAge: bool): (r: SalaryTax)
    ensures r.premiumBase >= 0.0
    ensures salary <= AowFranchise ==> r.premiumBase == 0.0
    ensures salary > AowFranchise ==> r.premiumBase + AowFranchise == salary
    ensures r.premium == Premium(salary, aowAge)
    ensures r.incomeTax == Tax(IncomeBrackets, salary)
    ensures r.credits == TaxCredits(salary)
    ensures r.payable >= 0.0
    ensures r.payable >= r.incomeTax + r.premium - r.credits
    ensures r.payable == 0.0 || r.payable == r.incomeTax + r.premium - r.credits
    ensures r.net + r.payable == salary
  {
    var base := Max(0.0, salary - AowFranchise);
    var premium := Premium(salary, aowAge);
    var incomeTax := Tax(IncomeBrackets, salary);
    var credits := TaxCredits(salary);
    var payable := Max(0.0, incomeTax + premium - credits);
    SalaryTax(base, premium, incomeTax, credits, payable, salary - payable)
  }

  /** The premium charged on a salary; from the AOW age on only the long-term-care part. */
  function Premium(salary: real, aowAge: bool): (p: real)
    ensures p >= 0.0
    ensures salary <= AowFranchise ==> p == 0.0
    ensures salary > AowFranchise ==> p == (salary - AowFranchise) * PremiumRate(aowAge)
  {
    Max(0.0, salary - AowFranchise) * PremiumRate(aowAge)
  }

  /** From the AOW age on the premium is never higher. */
  lemma PremiumLowerFromAowAge(salary: real)
    ensures Premium(salary, true) <= Premium(salary, false)
  {
    var base := Max(0.0, salary - AowFranchise);
    assert base * 0.0622 <= base * 0.178;
  }

  /** Flooring at zero keeps the order of two amounts that differ only in the premium. */
  lemma FloorKeepsOrder(tax: real, p1: real, p2: real, credits: real)
    requires p1 <= p2
    ensures Max(0.0, tax + p1 - credits) <= Max(0.0, tax + p2 - credits)
  {
  }

  /** Having reached the AOW age never increases the amount payable. */
  lemma AowAgeNeverCostsMore(salary: real)
    ensures SalaryLevy(salary, true).payable <= SalaryLevy(salary, false).payable
  {
    PremiumLowerFromAowAge(salary);
    FloorKeepsOrder(Tax(IncomeBrackets, salary), Premium(salary, true), Premium(salary, false), TaxCredits(salary));
  }

  /** Above 130,997 no credit is left, so the payable amount is bracket tax plus premium. */
  lemma NoCreditsAtHighSalary(salary: real, aowAge: bool)
    requires salary > 130997.0
    ensures SalaryLevy(salary, aowAge).payable
         == 0.3695 * 76934.0 + 0.495 * (salary - 76934.0) + (salary - AowFranchise) * PremiumRate(aowAge)
  {
    LaborCreditVanishes(salary);
  }
}

=== FILE: box2.dfy ===
/** Box 2: capital-income tax on the dividend (`box2` in the source). */
module Box2 {
  import opened Wrappers
  import opened Numbers
  import opened Brackets
  import opened Rates2026

  /** A levy on a gross amount: the tax and what is left of the amount. */
  datatype Levy = Levy(tax: real, net: real)

  /** Closed form of the box 2 brackets: 24.5% up to 66,700 and 31.8% above. */
  lemma Box2ClosedForm(dividend: real)
    requires dividend >= 0.0
    ensures Tax(Box2Brackets, dividend)
         == 0.245 * Min(dividend, 66700.0) + 0.318 * Max(0.0, dividend - 66700.0)
  {
    TablesWellFormed();
    TaxIsMarginal(Box2Brackets, 0.0, dividend);
    var rest := Box2Brackets[1..];
    assert rest == [Bracket(66700.0, None, 0.318)];
    assert Marginal(rest, dividend) == Portion(rest[0], dividend) * 0.318 by {
      assert rest[1..] == [];
    }
  }

  /** Box 2 tax and net dividend, before rounding. For a non-negative dividend the
      tax is the two-bracket closed form, is non-negative and at most the top rate. */
  function DividendTax(dividend: real): (r: Levy)
    ensures r.net + r.tax == dividend
    ensures dividend >= 0.0 ==>
              r.tax == 0.245 * Min(dividend, 66700.0) + 0.318 * Max(0.0, dividend - 66700.0)
    ensures dividend >= 0.0 ==> 0.0 <= r.tax <= 0.318 * dividend
  {
    var tax := Tax(Box2Brackets, dividend);
    if dividend >= 0.0 then Box2ClosedForm(dividend); Levy(tax, dividend - tax)
    else Levy(tax, dividend - tax)
  }

  /** A larger dividend never pays less box 2 tax. */
  lemma DividendTaxMonotone(d1: real, d2: real)
    requires 0.0 <= d1 <= d2
    ensures DividendTax(d1).tax <= DividendTax(d2).tax
  {
    TablesWellFormed();
    TaxMonotone(Box2Brackets, d1, d2);
  }
}

=== FILE: brackets.dfy ===
/** The progressive bracket evaluator shared by income tax (box 1), the
    capital-income tax on dividends (box 2) and corporate tax (VPB).

    `Tax` follows the source's loop step by step: take from the remaining
    amount the width of the current bracket (everything, for the open last
    bracket), tax that slice at the bracket's rate, and stop as soon as
    nothing is left. `Marginal` is an independent reference definition:
    the sum over all brackets of the part of the amount that falls inside
    the bracket, times its rate. */
module Brackets {
  import opened Wrappers
  import opened Numbers

  /** One bracket: amounts from `lower` up to `upper` (or without limit) are taxed at `rate`. */
  datatype Bracket = Bracket(lower: real, upper: Option<real>, rate: real)

  /** The slice of `rest` the loop takes from bracket `b`. */
  function Slice(b: Bracket, rest: real): real
  {
    if b.upper.None? then rest else Min(rest, b.upper.value - b.lower)
  }

  /** The source's bracket loop, applied to `rest` (initially the whole amount). */
  function Tax(table: seq<Bracket>, rest: real): real
    decreases |table|
  {
    if |table| == 0 then 0.0
    else
      var slice := Slice(table[0], rest);
      var left := rest - slice;
      slice * table[0].rate + (if left <= 0.0 then 0.0 else Tax(table[1..], left))
  }

  /** The brackets start at `lo`, each bounded bracket is non-empty and the next one
      starts where it ends, rates are non-negative, and the last bracket (only) is open. */
  predicate Chained(table: seq<Bracket>, lo: real)
    decreases |table|
  {
    && |table| > 0
    && table[0].lower == lo
    && table[0].rate >= 0.0
    && match table[0].upper
       case None => |table| == 1
       case Some(up) => up > lo && Chained(table[1..], up)
  }

  /** A well-formed bracket table starts at zero. */
  predicate WellFormed(table: seq<Bracket>)
  {
    Chained(table, 0.0)
  }

  /** The part of `amount` that lies inside bracket `b`. */
  function Portion(b: Bracket, amount: real): (p: real)
    ensures p >= 0.0
  {
    var top := if b.upper.None? then amount else Min(amount, b.upper.value);
    Max(0.0, top - b.lower)
  }

  /** Reference definition: every bracket taxes its own portion of the amount. */
  function Marginal(table: seq<Bracket>, amount: real): real
    decreases |table|
  {
    if |table| == 0 then 0.0
    else Portion(table[0], amount) * table[0].rate + Marginal(table[1..], amount)
  }

  /** Brackets that start at or above `amount` contribute nothing. */
  lemma {:induction false} MarginalBelowStart(table: seq<Bracket>, lo: real, amount: real)
    requires Chained(table, lo)
    requires amount <= lo
    ensures Marginal(table, amount) == 0.0
    decreases |table|
  {
    assert Portion(table[0], amount) == 0.0;
    match table[0].upper
    case None =>
    case Some(up) => MarginalBelowStart(table[1..], up, amount);
  }

  /** The loop computes the marginal-rate tax: for a chained table starting at `lo`,
      walking `rest` through it equals the reference tax of `lo + rest`. */
  lemma {:induction false} TaxIsMarginal(table: seq<Bracket>, lo: real, rest: real)
    requires Chained(table, lo)
    requires rest >= 0.0
    ensures Tax(table, rest) == Marginal(table, lo + rest)
    decreases |table|, 1
  {
    RestIsMarginal(table, lo, rest);
    TaxStep(table, rest);
    MarginalStepAt(table, lo, rest);
  }

  /** One step of the loop: the first bracket's slice at its rate, then the rest. */
  lemma TaxStep(table: seq<Bracket>, rest: real)
    requires |table| > 0
    ensures Tax(table, rest)
         == Slice(table[0], rest) * table[0].rate
            + (if rest - Slice(table[0], rest) <= 0.0 then 0.0 else Tax(table[1..], rest - Slice(table[0], rest)))
  {
  }

  /** One step of the reference sum, with the first bracket's portion written as
      the loop's slice. */
  lemma MarginalStepAt(table: seq<Bracket>, lo: real, rest: real)
    requires Chained(table, lo)
    requires rest >= 0.0
    ensures Marginal(table, lo + rest)
         == Slice(table[0], rest) * table[0].rate + Marginal(table[1..], lo + rest)
  {
    SliceIsPortion(table[0], lo, rest);
  }

  /** The loop's slice of a remainder in a bracket starting at `lo` is that bracket's
      portion of `lo` plus the remainder. */
  lemma SliceIsPortion(b: Bracket, lo: real, rest: real)
    requires b.lower == lo
    requires b.upper.Some? ==> b.upper.value > lo
    requires rest >= 0.0
    ensures Slice(b, rest) == Portion(b, lo + rest)
  {
  }

  /** What the loop does after the first bracket matches the reference tax of the later brackets. */
  lemma {:induction false} RestIsMarginal(table: seq<Bracket>, lo: real, rest: real)
    requires Chained(table, lo)
    requires rest >= 0.0
    ensures var left := rest - Slice(table[0], rest);
            (if left <= 0.0 then 0.0 else Tax(table[1..], left)) == Marginal(table[1..], lo + rest)
    decreases |table|, 0
  {
    var b, tail := table[0], table[1..];
    var left := rest - Slice(b, rest);
    match b.upper
    case None =>
      assert |tail| == 0;
    case Some(up) =>
      if rest <= up - lo {
        MarginalBelowStart(tail, up, lo + rest);
      } else {
        TaxIsMarginal(tail, up, left);
        assert up + left == lo + rest;
      }
  }

  /** For a well-formed table the loop computes the reference tax of the amount itself. */
  lemma TaxIsReference(table: seq<Bracket>, amount: real)
    requires WellFormed(table)
    requires amount >= 0.0
    ensures Tax(table, amount) == Marginal(table, amount)
  {
    TaxIsMarginal(table, 0.0, amount);
    assert 0.0 + amount == amount;
  }

  /** The reference tax is never negative. */
  lemma {:induction false} MarginalNonNegative(table: seq<Bracket>, lo: real, amount: real)
    requires Chained(table, lo)
    ensures Marginal(table, amount) >= 0.0
    decreases |table|
  {
    var p := Portion(table[0], amount);
    assert p * table[0].rate >= 0.0;
    match table[0].upper
    case None =>
    case Some(up) => MarginalNonNegative(table[1..], up, amount);
  }

  /** A larger amount has at least as large a portion in every bracket. */
  lemma PortionMonotone(b: Bracket, a1: real, a2: real)
    requires a1 <= a2
    requires b.rate >= 0.0
    ensures Portion(b, a1) * b.rate <= Portion(b, a2) * b.rate
  {
    assert Portion(b, a1) <= Portion(b, a2);
  }

  /** The reference tax is non-decreasing in the amount. */
  lemma {:induction false} MarginalMonotone(table: seq<Bracket>, lo: real, a1: real, a2: real)
    requires Chained(table, lo)
    requires a1 <= a2
    ensures Marginal(table, a1) <= Marginal(table, a2)
    decreases |table|
  {
    var m1, m2 := Marginal(table[1..], a1), Marginal(table[1..], a2);
    var p1, p2 := Portion(table[0], a1) * table[0].rate, Portion(table[0], a2) * table[0].rate;
    assert Marginal(table, a1) == p1 + m1;
    assert Marginal(table, a2) == p2 + m2;
    assert p1 <= p2 by {
      PortionMonotone(table[0], a1, a2);
    }
    assert m1 <= m2 by {
      if table[0].upper.Some? {
        MarginalMonotone(table[1..], table[0].upper.value, a1, a2);
      } else {
        assert |table[1..]| == 0;
      }
    }
  }

  /** Tax on nothing is nothing. */
  lemma TaxAtZero(table: seq<Bracket>)
    requires WellFormed(table)
    ensures Tax(table, 0.0) == 0.0
  {
    TaxIsReference(table, 0.0);
    MarginalBelowStart(table, 0.0, 0.0);
  }

  /** Tax on a non-negative amount is non-negative. */
  lemma TaxNonNegative(table: seq<Bracket>, amount: real)
    requires WellFormed(table)
    requires amount >= 0.0
    ensures Tax(table, amount) >= 0.0
  {
    TaxIsReference(table, amount);
    MarginalNonNegative(table, 0.0, amount);
  }

  /** A larger non-negative amount never pays less tax. */
  lemma TaxMonotone(table: seq<Bracket>, a1: real, a2: real)
    requires WellFormed(table)
    requires 0.0 <= a1 <= a2
    ensures Tax(table, a1) <= Tax(table, a2)
  {
    TaxIsReference(table, a1);
    TaxIsReference(table, a2);
    MarginalMonotone(table, 0.0, a1, a2);
  }

  /** The loop does not clamp negative amounts: a negative amount is "taxed" at the
      first bracket's rate, which gives a negative tax when that rate is positive. */
  lemma NegativeAmountNotClamped(table: seq<Bracket>, amount: real)
    requires WellFormed(table)
    requires amount < 0.0
    ensures Tax(table, amount) == amount * table[0].rate
    ensures table[0].rate > 0.0 ==> Tax(table, amount) < 0.0
  {
  }

  /** The loop reads only each bracket's width, so an inverted bracket (upper bound
      below lower bound) yields a negative slice: a zero amount then pays negative tax. */
  lemma InvertedBracketBreaksZero()
    ensures Tax([Bracket(10.0, Some(0.0), 0.5), Bracket(0.0, None, 0.2)], 0.0) == -3.0
  {
    var t := [Bracket(10.0, Some(0.0), 0.5), Bracket(0.0, None, 0.2)];
    assert Slice(t[0], 0.0) == -10.0;
    assert t[1..] == [Bracket(0.0, None, 0.2)];
    assert Tax(t[1..], 10.0) == 2.0;
  }
}

=== FILE: corporate.dfy ===
/** Corporate tax (VPB) on the company profit paid out (`vpb_berekenen`). */
module Corporate {
  import opened Wrappers
  import opened Numbers
  import opened Brackets
  import opened Rates2026

  /** Closed form of the corporate brackets: 19% up to 200,000 and 25.8% above. */
  lemma CorporateClosedForm(profit: real)
    requires profit >= 0.0
    ensures Tax(CorporateBrackets, profit)
         == 0.19 * Min(profit, 200000.0) + 0.258 * Max(0.0, profit - 200000.0)
  {
    TablesWellFormed();
    TaxIsMarginal(CorporateBrackets, 0.0, profit);
    var rest := CorporateBrackets[1..];
    assert rest == [Bracket(200000.0, None, 0.258)];
    assert Marginal(rest, profit) == Portion(rest[0], profit) * 0.258 by {
      assert rest[1..] == [];
    }
  }

  /** Corporate tax before rounding: for a non-negative profit the two-bracket
      closed form, between 19% and 25.8% of the profit. */
  function CorporateTax(profit: real): (t: real)
    ensures profit >= 0.0 ==>
              t == 0.19 * Min(profit, 200000.0) + 0.258 * Max(0.0, profit - 200000.0)
    ensures profit >= 0.0 ==> 0.19 * profit <= t <= 0.258 * profit
  {
    if profit >= 0.0 then CorporateClosedForm(profit); Tax(CorporateBrackets, profit)
    else Tax(CorporateBrackets, profit)
  }
}

=== FILE: credits.dfy ===
/** The two tax credits deducted from box 1 tax: the labour credit
    (arbeidskorting) and the general credit (algemene heffingskorting). */
module Credits {
  import opened Wrappers
  import opened Numbers
  import opened Schedules
  import opened Rates2026

  /** Labour credit: the first segment of the 2026 schedule whose upper bound
      (inclusive) is not below the income. */
  function LaborCredit(income: real): real
  {
    Evaluate(LaborCreditSchedule, income)
  }

  /** Reference definition of the labour credit, segment by segment. */
  function LaborCreditByCases(income: real): real
  {
    if income <= 12570.0 then 0.06336 * income
    else if income <= 24338.0 then 795.0 + 0.29803 * (income - 12570.0)
    else if income <= 40527.0 then 4333.0
    else if income <= 130997.0 then 4333.0 - 0.0665 * (income - 40527.0)
    else 0.0
  }

  /** The first-match walk over the schedule agrees with the case split for every income. */
  lemma LaborCreditMatchesCases(income: real)
    ensures LaborCredit(income) == LaborCreditByCases(income)
  {
    var s := LaborCreditSchedule;
    if income <= 12570.0 {
      EvaluateAt(s, income, 0);
    } else if income <= 24338.0 {
      EvaluateAt(s, income, 1);
    } else if income <= 40527.0 {
      EvaluateAt(s, income, 2);
    } else if income <= 130997.0 {
      EvaluateAt(s, income, 3);
    } else {
      EvaluateAt(s, income, 4);
    }
  }

  /** The schedule's last segment is open, so the fall-through `0` is never reached. */
  lemma LaborCreditAlwaysMatches(income: real)
    ensures FirstMatch(LaborCreditSchedule, income).Some?
  {
    FallbackUnreachable(LaborCreditSchedule, income);
  }

  /** No income, no labour credit. */
  lemma LaborCreditAtZero()
    ensures LaborCredit(0.0) == 0.0
  {
    LaborCreditMatchesCases(0.0);
  }

  /** The plateau: exactly 4,333 for incomes above 24,338 up to and including 40,527. */
  lemma LaborCreditPlateau(income: real)
    requires 24338.0 < income <= 40527.0
    ensures LaborCredit(income) == 4333.0
  {
    LaborCreditMatchesCases(income);
  }

  /** Above 130,997 the labour credit is zero. */
  lemma LaborCreditVanishes(income: real)
    requires income > 130997.0
    ensures LaborCredit(income) == 0.0
  {
    LaborCreditMatchesCases(income);
  }

  /** The phase-out segment overshoots: from 105,685 up to and including 130,997
      the credit is negative, so it raises the tax instead of lowering it. */
  lemma LaborCreditNegative(income: real)
    requires 105685.0 <= income <= 130997.0
    ensures LaborCredit(income) < 0.0
  {
    LaborCreditMatchesCases(income);
  }

  /** Upper bounds are inclusive: at 12,570 the first segment applies (796.4352),
      not the second segment's starting value 795; just above 12,570 the credit
      drops below 796, so the credit jumps down there. */
  lemma LaborCreditJumpAt12570(income: real)
    requires 12570.0 < income <= 12573.0
    ensures LaborCredit(12570.0) == 796.4352
    ensures LaborCredit(income) < 796.0
  {
    LaborCreditMatchesCases(12570.0);
    LaborCreditMatchesCases(income);
  }

  /** At 24,338 the second segment still applies (4,302.21704), while every income
      just above it gets the plateau 4,333: the credit jumps up there. */
  lemma LaborCreditJumpAt24338(income: real)
    requires 24338.0 < income <= 40527.0
    ensures LaborCredit(24338.0) == 4302.21704
    ensures LaborCredit(income) - LaborCredit(24338.0) == 30.78296
  {
    LaborCreditMatchesCases(24338.0);
    LaborCreditMatchesCases(income);
  }

  /** At 130,997 the fourth segment still applies (−1,683.255), while every income
      above it gets 0: the credit jumps up by 1,683.255 there. */
  lemma LaborCreditJumpAt130997(income: real)
    requires income > 130997.0
    ensures LaborCredit(130997.0) == -1683.255
    ensures LaborCredit(income) - LaborCredit(130997.0) == 1683.255
  {
    LaborCreditMatchesCases(130997.0);
    LaborCreditMatchesCases(income);
  }

  /** The phase-out formula of the general credit, without the surrounding cases. */
  function PhaseOut(income: real): real
  {
    GeneralCreditMax * (PhaseOutEnd - income) / (PhaseOutEnd - PhaseOutStart)
  }

  /** The phase-out line meets the maximum at its start and zero at its end. */
  lemma PhaseOutEndpoints()
    ensures PhaseOut(PhaseOutStart) == GeneralCreditMax
    ensures PhaseOut(PhaseOutEnd) == 0.0
  {
  }

  /** General credit: the maximum up to the start of the phase-out, then the phase-out line, then zero. */
  function GeneralCredit(income: real): (c: real)
    ensures 0.0 <= c <= GeneralCreditMax
    ensures income <= PhaseOutStart ==> c == GeneralCreditMax
    ensures income > PhaseOutEnd ==> c == 0.0
    ensures c == Max(0.0, Min(GeneralCreditMax, PhaseOut(income)))
  {
    if income <= PhaseOutStart then GeneralCreditMax
    else if income <= PhaseOutEnd then PhaseOut(income)
    else 0.0
  }

  /** More income never yields more general credit. */
  lemma GeneralCreditNonIncreasing(low: real, high: real)
    requires low <= high
    ensures GeneralCredit(high) <= GeneralCredit(low)
  {
    assert PhaseOut(high) <= PhaseOut(low);
  }

  /** Both credits together (heffingskortingen): the labour credit plus the
      phase-out line clamped to [0, maximum]. The general part always lies between
      0 and the maximum, and only the labour credit remains above the phase-out end. */
  function TaxCredits(income: real): (c: real)
    ensures LaborCredit(income) <= c <= LaborCredit(income) + GeneralCreditMax
    ensures income <= PhaseOutStart ==> c == LaborCredit(income) + GeneralCreditMax
    ensures income > PhaseOutEnd ==> c == LaborCredit(income)
    ensures c == LaborCredit(income) + Max(0.0, Min(GeneralCreditMax, PhaseOut(income)))
  {
    LaborCredit(income) + GeneralCredit(income)
  }
}

=== FILE: numbers.dfy ===
/** Minimum and maximum: the `min`/`max` of the bracket slices, the premium
    base, the floor at zero and the sweep's upper bound. */
module Numbers {

  function Min(a: real, b: real): (m: real)
    ensures m <= a && m <= b
    ensures m == a || m == b
  {
    if a <= b then a else b
  }

  function Max(a: real, b: real): (m: real)
    ensures m >= a && m >= b
    ensures m == a || m == b
  {
    if a >= b then a else b
  }

  /** `Min` on whole numbers. */
  function IntMin(a: int, b: int): int
  {
    if a <= b then a else b
  }
}

=== FILE: rates2026.dfy ===
/** The 2026 rate tables and constants of the calculator. */
module Rates2026 {
  import opened Wrappers
  import opened Brackets
  import opened Schedules

  /** Box 1 income tax: two brackets at 36.95% up to 76,934, then 49.5%. */
  const IncomeBrackets: seq<Bracket> := [
    Bracket(0.0, Some(38041.0), 0.3695),
    Bracket(38041.0, Some(76934.0), 0.3695),
    Bracket(76934.0, None, 0.495)
  ]

  /** Salary below this threshold carries no national-insurance premium. */
  const AowFranchise: real := 18760.0
  /** Premium rate below the state-pension (AOW) age. */
  const AowPremiumRate: real := 0.178
  /** Premium rate above the AOW age (long-term-care premium only). */
  const WlzOnlyRate: real := 0.0622

  /** Labour credit (arbeidskorting) segments. */
  const LaborCreditSchedule: seq<Segment> := [
    Segment(0.0, Some(12570.0), Linear(0.0, 0.06336, 0.0)),
    Segment(12570.0, Some(24338.0), Linear(795.0, 0.29803, 12570.0)),
    Segment(24338.0, Some(40527.0), Flat(4333.0)),
    Segment(40527.0, Some(130997.0), Linear(4333.0, -0.0665, 40527.0)),
    Segment(130997.0, None, Flat(0.0))
  ]

  /** General credit (algemene heffingskorting): maximum and linear phase-out range. */
  const GeneralCreditMax: real := 3070.0
  const PhaseOutStart: real := 24338.0
  const PhaseOutEnd: real := 76934.0

  /** Box 2 capital-income tax on dividends. */
  const Box2Brackets: seq<Bracket> := [
    Bracket(0.0, Some(66700.0), 0.245),
    Bracket(66700.0, None, 0.318)
  ]

  /** Corporate tax (VPB). */
  const CorporateBrackets: seq<Bracket> := [
    Bracket(0.0, Some(200000.0), 0.19),
    Bracket(200000.0, None, 0.258)
  ]

  /** All three bracket tables are well formed. */
  lemma TablesWellFormed()
    ensures WellFormed(IncomeBrackets)
    ensures WellFormed(Box2Brackets)
    ensures WellFormed(CorporateBrackets)
  {
    assert IncomeBrackets[1..][1..] == [Bracket(76934.0, None, 0.495)];
    assert Box2Brackets[1..] == [Bracket(66700.0, None, 0.318)];
    assert CorporateBrackets[1..] == [Bracket(200000.0, None, 0.258)];
  }
}

=== FILE: rounding.dfy ===
/** Python's built-in `round(x)` with no digits: to the nearest integer, ties to the even one. */
module Rounding {

  /** The fractional part of `x` is exactly one half. */
  predicate IsTie(x: real)
  {
    x - x.Floor as real == 0.5
  }

  function RoundHalfEven(x: real): (r: int)
    ensures -0.5 <= r as real - x <= 0.5
    ensures IsTie(x) ==> r % 2 == 0
    ensures !IsTie(x) ==> -0.5 < r as real - x < 0.5
  {
    var f := x.Floor;
    var frac := x - f as real;
    if frac < 0.5 then f
    else if frac > 0.5 then f + 1
    else if f % 2 == 0 then f
    else f + 1
  }

  /** The nearest integer is unique: any integer closer than one half is the result. */
  lemma RoundNearest(x: real, n: int)
    requires -0.5 < n as real - x < 0.5
    ensures RoundHalfEven(x) == n
  {
    var r := RoundHalfEven(x);
    assert -1.0 < r as real - n as real < 1.0;
  }

  /** Rounding an integer changes nothing. */
  lemma RoundIntegral(n: int)
    ensures RoundHalfEven(n as real) == n
  {
    RoundNearest(n as real, n);
  }

  /** Away from ties, rounding commutes with subtracting from an integer, so a
      split of an integer amount into two rounded parts still adds up. */
  lemma RoundedSplitAddsUp(total: int, part: real)
    requires !IsTie(part)
    ensures RoundHalfEven(total as real - part) + RoundHalfEven(part) == total
  {
    var p := RoundHalfEven(part);
    RoundNearest(total as real - part, total - p);
  }

  /** At a tie the rounded parts need not add up: 1 split as 0.5 + 0.5 rounds to 0 + 0. */
  lemma RoundedSplitCanLoseOne()
    ensures RoundHalfEven(1.0 - 0.5) + RoundHalfEven(0.5) == 0
  {
    assert (0.5).Floor == 0;
  }

  /** At a tie the rounded parts can also add up to one more: 3 split as 1.5 + 1.5 rounds to 2 + 2. */
  lemma RoundedSplitCanGainOne()
    ensures RoundHalfEven(3.0 - 1.5) + RoundHalfEven(1.5) == 4
  {
    assert (1.5).Floor == 1;
  }
}

=== FILE: scenario.dfy ===
/** One salary/dividend split (`bereken_scenario`): corporate tax on the whole
    payout, box 1 on the salary, box 2 on the dividend, and the totals.

    `Compose` keeps every amount exact; `Calculate` is what the calculator
    reports, with each levy and each net amount rounded half-to-even to whole
    euros separately, and the totals summed from the rounded parts. */
module Scenario {
  import opened Numbers
  import opened Rounding
  import opened Brackets
  import opened Rates2026
  import opened Credits
  import opened Box1
  import opened Box2
  import opened Corporate

  /** A scenario before rounding. */
  datatype Scenario = Scenario(
    salary: real,
    dividend: real,
    corporateTax: real,
    salaryTax: real,    // income tax plus premiums
    dividendTax: real,
    totalTax: real,
    netSalary: real,
    netDividend: real,
    totalNet: real)

  /** The exact scenario. Total net is net salary plus net dividend: corporate tax
      is reported in the total tax but never taken from the net, so net plus the
      personal taxes is exactly the payout. */
  function Compose(salary: real, dividend: real, aowAge: bool): (sc: Scenario)
    ensures sc.salary == salary && sc.dividend == dividend
    ensures sc.totalTax == sc.corporateTax + sc.salaryTax + sc.dividendTax
    ensures sc.totalNet == sc.netSalary + sc.netDividend
    ensures sc.netSalary + sc.salaryTax == salary
    ensures sc.netDividend + sc.dividendTax == dividend
    ensures sc.totalNet + (sc.totalTax - sc.corporateTax) == salary + dividend
    ensures sc.salaryTax >= 0.0
    ensures salary + dividend >= 0.0 ==> sc.corporateTax >= 0.0
    ensures dividend >= 0.0 ==> sc.dividendTax >= 0.0
    ensures sc.corporateTax == CorporateTax(salary + dividend)
    ensures sc.salaryTax == SalaryLevy(salary, aowAge).payable && sc.netSalary == SalaryLevy(salary, aowAge).net
    ensures sc.dividendTax == DividendTax(dividend).tax && sc.netDividend == DividendTax(dividend).net
    ensures sc.salaryTax == Max(0.0, Tax(IncomeBrackets, salary) + Premium(salary, aowAge) - TaxCredits(salary))
    ensures salary + dividend >= 0.0 ==>
              sc.corporateTax == 0.19 * Min(salary + dividend, 200000.0) + 0.258 * Max(0.0, salary + dividend - 200000.0)
    ensures dividend >= 0.0 ==>
              sc.dividendTax == 0.245 * Min(dividend, 66700.0) + 0.318 * Max(0.0, dividend - 66700.0)
  {
    var vpb := CorporateTax(salary + dividend);
    var wage := SalaryLevy(salary, aowAge);
    var div := DividendTax(dividend);
    Scenario(salary, dividend, vpb, wage.payable, div.tax,
             vpb + wage.payable + div.tax, wage.net, div.net, wage.net + div.net)
  }

  /** Total net does not subtract corporate tax: net plus total tax exceeds the
      payout by exactly the corporate tax, which is positive for any positive payout. */
  lemma NetIgnoresCorporateTax(salary: real, dividend: real, aowAge: bool)
    requires salary + dividend > 0.0
    ensures Compose(salary, dividend, aowAge).totalNet + Compose(salary, dividend, aowAge).totalTax
         == salary + dividend + CorporateTax(salary + dividend)
    ensures CorporateTax(salary + dividend) > 0.0
  {
  }

  /** A scenario as the calculator reports it, in whole euros. */
  datatype Report = Report(
    salary: int,
    dividend: int,
    corporateTax: int,
    salaryTax: int,
    dividendTax: int,
    totalTax: int,
    netSalary: int,
    netDividend: int,
    totalNet: int)

  /** Rounds an exact scenario to whole euros the way the calculator does: each
      levy and each net amount on its own, totals summed from the rounded parts. */
  function RoundScenario(sc: Scenario, salary: int, dividend: int): (r: Report)
    ensures r.salary == salary && r.dividend == dividend
    ensures r.totalTax == r.corporateTax + r.salaryTax + r.dividendTax
    ensures r.totalNet == r.netSalary + r.netDividend
    ensures && -0.5 <= r.corporateTax as real - sc.corporateTax <= 0.5
            && -0.5 <= r.salaryTax as real - sc.salaryTax <= 0.5
            && -0.5 <= r.dividendTax as real - sc.dividendTax <= 0.5
            && -0.5 <= r.netSalary as real - sc.netSalary <= 0.5
            && -0.5 <= r.netDividend as real - sc.netDividend <= 0.5
  {
    var vpb := RoundHalfEven(sc.corporateTax);
    var wageTax := RoundHalfEven(sc.salaryTax);
    var netSalary := RoundHalfEven(sc.netSalary);
    var divTax := RoundHalfEven(sc.dividendTax);
    var netDividend := RoundHalfEven(sc.netDividend);
    Report(salary, dividend, vpb, wageTax, divTax, vpb + wageTax + divTax,
           netSalary, netDividend, netSalary + netDividend)
  }

  /** When each layer's net plus tax is its whole-euro gross and neither tax ends in
      exactly half a euro, the rounded net plus the rounded personal taxes is the payout
      (at a tie, half-to-even rounding of the tax and of the net can both move the same way). */
  lemma RoundedScenarioBalances(sc: Scenario, salary: int, dividend: int)
    requires sc.netSalary + sc.salaryTax == salary as real
    requires sc.netDividend + sc.dividendTax == dividend as real
    requires !IsTie(sc.salaryTax) && !IsTie(sc.dividendTax)
    ensures var r := RoundScenario(sc, salary, dividend);
            r.totalNet + (r.totalTax - r.corporateTax) == salary + dividend
  {
    assert sc.netSalary == salary as real - sc.salaryTax;
    assert sc.netDividend == dividend as real - sc.dividendTax;
    RoundedSplitAddsUp(salary, sc.salaryTax);
    RoundedSplitAddsUp(dividend, sc.dividendTax);
  }

  /** `bereken_scenario`: the exact scenario rounded to whole euros; every rounded
      figure is within half a euro of the exact one; salary tax is non-negative, and
      dividend and corporate tax are non-negative for a non-negative dividend and payout. */
  function Calculate(salary: int, dividend: int, aowAge: bool): (r: Report)
    ensures r.salary == salary && r.dividend == dividend
    ensures r.totalTax == r.corporateTax + r.salaryTax + r.dividendTax
    ensures r.totalNet == r.netSalary + r.netDividend
    ensures var sc := Compose(salary as real, dividend as real, aowAge);
            && -0.5 <= r.corporateTax as real - sc.corporateTax <= 0.5
            && -0.5 <= r.salaryTax as real - sc.salaryTax <= 0.5
            && -0.5 <= r.dividendTax as real - sc.dividendTax <= 0.5
            && -0.5 <= r.netSalary as real - sc.netSalary <= 0.5
            && -0.5 <= r.netDividend as real - sc.netDividend <= 0.5
    ensures r.salaryTax >= 0
    ensures dividend >= 0 ==> r.dividendTax >= 0
    ensures salary + dividend >= 0 ==> r.corporateTax >= 0
  {
    RoundScenario(Compose(salary as real, dividend as real, aowAge), salary, dividend)
  }

  /** After rounding, net plus the personal taxes is still the payout unless a
      personal tax ends in exactly half a euro. */
  lemma ReportBalances(salary: int, dividend: int, aowAge: bool)
    ensures var sc := Compose(salary as real, dividend as real, aowAge);
            var r := Calculate(salary, dividend, aowAge);
            !IsTie(sc.salaryTax) && !IsTie(sc.dividendTax) ==>
              r.totalNet + (r.totalTax - r.corporateTax) == salary + dividend
  {
    var sc := Compose(salary as real, dividend as real, aowAge);
    if !IsTie(sc.salaryTax) && !IsTie(sc.dividendTax) {
      RoundedScenarioBalances(sc, salary, dividend);
    }
  }

  /** Effective tax rate in percent: total tax (corporate tax included) relative to the payout. */
  function EffectiveRatePercent(r: Report): (pct: real)
    requires r.salary + r.dividend != 0
    ensures pct * (r.salary + r.dividend) as real == 100.0 * r.totalTax as real
    ensures r.salary + r.dividend > 0 && r.totalTax >= 0 ==> pct >= 0.0
  {
    r.totalTax as real / (r.salary + r.dividend) as real * 100.0
  }

  /** Strategy 1: the minimum salary with the rest of the payout as dividend, the
      dividend clamped at zero when the minimum salary exceeds the payout. */
  function MinimumSalaryScenario(total: int, minSalary: int, aowAge: bool): (r: Report)
    ensures r.salary == minSalary
    ensures r.dividend >= 0
    ensures minSalary <= total ==> r.salary + r.dividend == total
    ensures minSalary > total ==> r.dividend == 0 && r.salary + r.dividend > total
    ensures r == Calculate(minSalary, r.dividend, aowAge)
  {
    var dividend := if total - minSalary < 0 then 0 else total - minSalary;
    Calculate(minSalary, dividend, aowAge)
  }
}

=== FILE: schedules.dfy ===
/** Piecewise credit schedules evaluated by first match.

    A schedule is an ordered list of segments, each with an upper bound (or
    none) and a formula. An income is handed to the FIRST segment whose upper
    bound is open or at least the income; the lower bounds are carried for
    documentation but never consulted. When no segment accepts the income the
    schedule yields 0. */
module Schedules {
  import opened Wrappers

  /** How a segment turns an income into a credit. */
  datatype Formula =
    | Flat(amount: real)                              // the same credit for every income in the segment
    | Linear(base: real, slope: real, anchor: real)   // base + slope * (income - anchor)

  function Apply(f: Formula, income: real): real
  {
    match f
    case Flat(amount) => amount
    case Linear(base, slope, anchor) => base + slope * (income - anchor)
  }

  datatype Segment = Segment(lower: real, upper: Option<real>, formula: Formula)

  /** The test the source applies to each segment: open upper bound, or income at most the (inclusive) bound. */
  predicate Accepts(s: Segment, income: real)
  {
    s.upper.None? || income <= s.upper.value
  }

  /** Index of the first segment that accepts `income`, if any. */
  function FirstMatch(schedule: seq<Segment>, income: real): (k: Option<nat>)
    ensures k.Some? ==> k.value < |schedule| && Accepts(schedule[k.value], income)
    ensures k.Some? ==> forall j :: 0 <= j < k.value ==> !Accepts(schedule[j], income)
    ensures k.None? <==> forall j :: 0 <= j < |schedule| ==> !Accepts(schedule[j], income)
    decreases |schedule|
  {
    if |schedule| == 0 then None
    else if Accepts(schedule[0], income) then Some(0)
    else
      match FirstMatch(schedule[1..], income)
      case None => None
      case Some(k) => Some(k + 1)
  }

  /** The credit the schedule grants: the first accepting segment's formula, or 0 when none accepts. */
  function Evaluate(schedule: seq<Segment>, income: real): real
  {
    match FirstMatch(schedule, income)
    case None => 0.0
    case Some(k) => Apply(schedule[k].formula, income)
  }

  /** The first accepting segment decides the credit. */
  lemma EvaluateAt(schedule: seq<Segment>, income: real, k: nat)
    requires k < |schedule| && Accepts(schedule[k], income)
    requires forall j :: 0 <= j < k ==> !Accepts(schedule[j], income)
    ensures Evaluate(schedule, income) == Apply(schedule[k].formula, income)
  {
    var m := FirstMatch(schedule, income);
    assert m == Some(k);
  }

  /** When the last segment is open every income finds a segment, so the
      fall-through value 0 is never used. */
  lemma FallbackUnreachable(schedule: seq<Segment>, income: real)
    requires |schedule| > 0 && schedule[|schedule| - 1].upper.None?
    ensures FirstMatch(schedule, income).Some?
  {
    assert Accepts(schedule[|schedule| - 1], income);
  }
}

=== FILE: sweep.dfy ===
/** The comparison table: salaries from the minimum salary upward in steps of
    10,000, capped at the payout and at 150,000, each with the rest of the
    payout as dividend, and the row with the highest total net (the first one
    on ties, as pandas' `idxmax` picks). */
module Sweep {
  import opened Wrappers
  import opened Numbers
  import opened Scenario

  const Step: int := 10000
  const SalaryCap: int := 150000

  /** Python's `range(start, stop, Step)`. */
  function Range(start: int, stop: int): (xs: seq<int>)
    ensures |xs| == if start < stop then (stop - start - 1) / Step + 1 else 0
    ensures forall i :: 0 <= i < |xs| ==> xs[i] == start + i * Step && xs[i] < stop
    decreases stop - start
  {
    if start >= stop then [] else [start] + Range(start + Step, stop)
  }

  /** `a` is `b` with some elements left out, the rest in their original order. */
  predicate Subsequence(a: seq<int>, b: seq<int>)
    decreases |b|
  {
    |a| == 0 || (|b| > 0 && ((a[0] == b[0] && Subsequence(a[1..], b[1..])) || Subsequence(a, b[1..])))
  }

  /** The loop's `continue` when the dividend would be negative: exactly the salaries
      leaving a non-negative dividend are kept, in their original order. */
  function KeepPayable(salaries: seq<int>, total: int): (kept: seq<int>)
    ensures forall i :: 0 <= i < |kept| ==> total - kept[i] >= 0
    ensures forall s :: s in kept <==> s in salaries && total - s >= 0
    ensures Subsequence(kept, salaries)
    ensures (forall i :: 0 <= i < |salaries| ==> salaries[i] <= total) ==> kept == salaries
    decreases |salaries|
  {
    if |salaries| == 0 then []
    else if total - salaries[0] < 0 then KeepPayable(salaries[1..], total)
    else [salaries[0]] + KeepPayable(salaries[1..], total)
  }

  /** The salaries the table evaluates. */
  function Candidates(minSalary: int, total: int): seq<int>
  {
    KeepPayable(Range(minSalary, IntMin(total + 1, SalaryCap + 1)), total)
  }

  /** The candidates are the grid from the minimum salary in steps of 10,000 up
      to the smaller of the payout and 150,000; the negative-dividend skip never
      fires, and there are none exactly when the minimum salary is above that cap. */
  lemma CandidatesAreGrid(minSalary: int, total: int)
    ensures var c := Candidates(minSalary, total);
            && (forall i :: 0 <= i < |c| ==> c[i] == minSalary + i * Step)
            && (forall i :: 0 <= i < |c| ==> minSalary <= c[i] <= IntMin(total, SalaryCap))
            && (forall i :: 0 <= i < |c| ==> total - c[i] >= 0)
            && (|c| == 0 <==> minSalary > IntMin(total, SalaryCap))
  {
    var r := Range(minSalary, IntMin(total + 1, SalaryCap + 1));
    assert Candidates(minSalary, total) == r;
  }

  /** Every grid point between the minimum salary and the cap is a candidate. */
  lemma CandidatesComplete(minSalary: int, total: int, salary: int)
    requires minSalary <= salary <= IntMin(total, SalaryCap)
    requires (salary - minSalary) % Step == 0
    ensures salary in Candidates(minSalary, total)
  {
    CandidatesAreGrid(minSalary, total);
    var c := Candidates(minSalary, total);
    var stop := IntMin(total + 1, SalaryCap + 1);
    var i := (salary - minSalary) / Step;
    assert salary == minSalary + i * Step;
    assert i <= (stop - minSalary - 1) / Step;
    assert c[i] == salary;
  }

  /** One row of the table. */
  datatype Row = Row(salary: int, dividend: int, totalNet: int)

  /** The total net the calculator reports for a salary, the rest of `total` being dividend. */
  function ScenarioNet(total: int, aowAge: bool): int -> int
  {
    salary => Calculate(salary, total - salary, aowAge).totalNet
  }

  /** The table: one row per candidate salary, in ascending salary order, scored by `net`. */
  function Rows(minSalary: int, total: int, net: int -> int): (rows: seq<Row>)
    ensures |rows| == |Candidates(minSalary, total)|
    ensures forall i :: 0 <= i < |rows| ==>
              var s := Candidates(minSalary, total)[i];
              rows[i] == Row(s, total - s, net(s))
  {
    var c := Candidates(minSalary, total);
    seq(|c|, i requires 0 <= i < |c| => Row(c[i], total - c[i], net(c[i])))
  }

  /** Index of the first row with the highest total net (a scan with strict `>`). */
  function FirstMaxIndex(rows: seq<Row>): (k: nat)
    requires |rows| > 0
    ensures k < |rows|
    ensures forall j :: 0 <= j < |rows| ==> rows[j].totalNet <= rows[k].totalNet
    ensures forall j :: 0 <= j < k ==> rows[j].totalNet < rows[k].totalNet
    decreases |rows|
  {
    if |rows| == 1 then 0
    else
      var k := FirstMaxIndex(rows[..|rows| - 1]);
      if rows[|rows| - 1].totalNet > rows[k].totalNet then |rows| - 1 else k
  }

  /** Only one index is a first maximum. */
  lemma FirstMaxUnique(rows: seq<Row>, k: nat)
    requires k < |rows|
    requires forall j :: 0 <= j < |rows| ==> rows[j].totalNet <= rows[k].totalNet
    requires forall j :: 0 <= j < k ==> rows[j].totalNet < rows[k].totalNet
    ensures FirstMaxIndex(rows) == k
  {
    var m := FirstMaxIndex(rows);
    assert rows[m].totalNet == rows[k].totalNet;
  }

  /** The best row; `None` for an empty table, where the source fails. */
  function Best(rows: seq<Row>): (best: Option<Row>)
    ensures best.None? <==> |rows| == 0
    ensures best.Some? ==> best.value in rows
    ensures best.Some? ==> forall j :: 0 <= j < |rows| ==> rows[j].totalNet <= best.value.totalNet
    ensures best.Some? ==> best.value == rows[FirstMaxIndex(rows)]
  {
    if |rows| == 0 then None else Some(rows[FirstMaxIndex(rows)])
  }

  /** With salaries in ascending order, the best row is the lowest-salary row
      among those with the highest total net. */
  lemma BestPrefersLowestSalary(rows: seq<Row>)
    requires forall i, j :: 0 <= i < j < |rows| ==> rows[i].salary < rows[j].salary
    ensures var best := Best(rows);
            best.Some? ==> forall j :: 0 <= j < |rows| && rows[j].salary < best.value.salary ==>
                             rows[j].totalNet < best.value.totalNet
  {
    if |rows| > 0 {
      var k := FirstMaxIndex(rows);
      forall j | 0 <= j < |rows| && rows[j].salary < rows[k].salary
        ensures rows[j].totalNet < rows[k].totalNet
      {
        assert j < k;
      }
    }
  }

  /** The best row of the table scored by `net`. */
  function BestSplit(minSalary: int, total: int, net: int -> int): Option<Row>
  {
    Best(Rows(minSalary, total, net))
  }

  /** The optimiser: the best row of the table scored by the scenario's total net. */
  function Optimize(minSalary: int, total: int, aowAge: bool): Option<Row>
  {
    BestSplit(minSalary, total, ScenarioNet(total, aowAge))
  }

  /** Whatever the scoring, a best row exists exactly when some candidate exists.
      That row respects the minimum salary and the cap, pays out the whole amount
      with a non-negative dividend, scores at least as well as every candidate
      salary, and strictly better than every lower one. */
  lemma BestSplitIsBest(minSalary: int, total: int, net: int -> int)
    ensures BestSplit(minSalary, total, net).Some? <==> minSalary <= IntMin(total, SalaryCap)
    ensures var best := BestSplit(minSalary, total, net);
            best.Some? ==>
              && minSalary <= best.value.salary <= IntMin(total, SalaryCap)
              && best.value.dividend == total - best.value.salary >= 0
              && best.value.salary in Candidates(minSalary, total)
              && best.value.totalNet == net(best.value.salary)
              && (forall s :: s in Candidates(minSalary, total) ==> net(s) <= best.value.totalNet)
              && (forall s :: s in Candidates(minSalary, total) && s < best.value.salary ==>
                    net(s) < best.value.totalNet)
  {
    CandidatesAreGrid(minSalary, total);
    var c := Candidates(minSalary, total);
    var rows := Rows(minSalary, total, net);
    if |rows| > 0 {
      var k := FirstMaxIndex(rows);
      var best := rows[k];
      assert BestSplit(minSalary, total, net) == Some(best);
      assert best.salary == c[k];
      CandidateScores(c, rows, minSalary, total, net, k);
    }
  }

  /** Every candidate salary scores no more than the first-maximum row, and strictly
      less when it is lower than that row's salary. */
  lemma CandidateScores(c: seq<int>, rows: seq<Row>, minSalary: int, total: int, net: int -> int, k: nat)
    requires forall i :: 0 <= i < |c| ==> c[i] == minSalary + i * Step
    requires |rows| == |c|
    requires forall i :: 0 <= i < |rows| ==> rows[i] == Row(c[i], total - c[i], net(c[i]))
    requires k < |rows|
    requires forall j :: 0 <= j < |rows| ==> rows[j].totalNet <= rows[k].totalNet
    requires forall j :: 0 <= j < k ==> rows[j].totalNet < rows[k].totalNet
    ensures forall s :: s in c ==> net(s) <= rows[k].totalNet
    ensures forall s :: s in c && s < rows[k].salary ==> net(s) < rows[k].totalNet
  {
    forall s | s in c
      ensures net(s) <= rows[k].totalNet
      ensures s < rows[k].salary ==> net(s) < rows[k].totalNet
    {
      var j :| 0 <= j < |c| && c[j] == s;
      assert rows[j] == Row(s, total - s, net(s));
      if s < rows[k].salary {
        assert j < k;
      }
    }
  }

  /** The optimiser's answer, in the calculator's terms: a best row exists exactly
      when the minimum salary is at most min(payout, 150,000), and its total net is
      the reported total net of its own split and at least that of every candidate. */
  lemma OptimizeIsBest(minSalary: int, total: int, aowAge: bool)
    ensures Optimize(minSalary, total, aowAge).Some? <==> minSalary <= IntMin(total, SalaryCap)
    ensures var best := Optimize(minSalary, total, aowAge);
            var net := ScenarioNet(total, aowAge);
            best.Some? ==>
              && minSalary <= best.value.salary <= IntMin(total, SalaryCap)
              && best.value.dividend == total - best.value.salary >= 0
              && best.value.salary in Candidates(minSalary, total)
              && best.value.totalNet == net(best.value.salary)
              && (forall s :: s in Candidates(minSalary, total) ==> net(s) <= best.value.totalNet)
              && (forall s :: s in Candidates(minSalary, total) && s < best.value.salary ==>
                    net(s) < best.value.totalNet)
  {
    BestSplitIsBest(minSalary, total, ScenarioNet(total, aowAge));
  }

  /** Whenever the table has a best row, it does at least as well as strategy 1:
      the minimum salary is itself a candidate and scores the strategy-1 total net. */
  lemma OptimizeNoWorseThanMinimumSalary(minSalary: int, total: int, aowAge: bool)
    ensures var best := Optimize(minSalary, total, aowAge);
            best.Some? ==> best.value.totalNet >= MinimumSalaryScenario(total, minSalary, aowAge).totalNet
  {
    OptimizeIsBest(minSalary, total, aowAge);
    if Optimize(minSalary, total, aowAge).Some? {
      CandidatesComplete(minSalary, total, minSalary);
      assert ScenarioNet(total, aowAge)(minSalary) == MinimumSalaryScenario(total, minSalary, aowAge).totalNet;
    }
  }
}

=== FILE: wrappers.dfy ===
/** Optional values: an open upper bound of a bracket or credit segment, and
    the outcome of an operation that may have nothing to return. */
module Wrappers {

  datatype Option<+T> = None | Some(value: T)
}
